=== FILE: README.md ===
# FarmerConnect page logic in Dafny

FarmerConnect has two web pages: a farmer-facing homepage and an officer
dashboard. Both are event handlers over the browser's DOM. This project models
the rules inside those handlers and proves what they promise:

- the homepage hero slider: `showSlide`, `nextSlide` and the dot clicks, as a
  class over two arrays of "active" flags;
- the newsletter form's three outcomes (empty, invalid, subscribed) and its
  e-mail pattern `^[^\s@]+@[^\s@]+\.[^\s@]+$`;
- the stat counters' target fallback `parseInt(data-target) || parseInt(text) || 0`;
- the smooth-scroll offset below the fixed header;
- the mobile menu and the dark-mode toggle;
- the dashboard's `parseStatValue`, with its pattern
  `^([^0-9]*)([\d,]+\.?\d*)([^0-9]*)$` and its K / M / L / CR multipliers;
- the 12-hour conversion and field formatting of `updateAdvancedClock`;
- the account dropdown: `toggleMenu`, `menuAction` and the outside click.

The JavaScript built-ins these handlers lean on are written out in `JsText`:
`String.prototype.trim` with ECMAScript's white-space set, `parseInt` without a
radix, `Number.prototype.toString` on integers, and `padStart`.

Modules, one per file:

| file | module | models |
|---|---|---|
| js_text.dfy | `JsText` | `trim`, `\s`, `parseInt`, integer `toString`, `padStart` |
| hero_slider.dfy | `HeroSlider` | `initHeroSlider` |
| newsletter.dfy | `Newsletter` | the newsletter submit handler |
| stat_counter.dfy | `StatCounter` | the target rule of the homepage's `animateStats` |
| smooth_scroll.dfy | `SmoothScroll` | `initSmoothScrolling` |
| page_toggles.dfy | `PageToggles` | `initMobileMenu`, the dark-mode toggle |
| stat_parser.dfy | `StatParser` | `parseStatValue` |
| advanced_clock.dfy | `AdvancedClock` | `updateAdvancedClock` |
| account_menu.dfy | `AccountMenu` | `toggleMenu`, `menuAction`, the outside click |

How the model reads the program:

- The newsletter's e-mail pattern is written twice: as the pattern language,
  an existential predicate, and as a plain rule on characters (no white space,
  one '@', a '.' inside the domain). Lemmas prove the two agree in both
  directions.
- `parseStatValue`'s pattern is written twice as well: as the pattern language,
  and as the match the engine finds. Lemmas prove the engine's match is a
  reading of the pattern, that it exists whenever some reading does, and that
  it is the leftmost-greedy one.
- The comma removal `/,/g` has one definition, `RemoveCommas`. Lemmas state
  what it removes and what it keeps.
- `parseStatValue`'s regular expression is modelled as JavaScript's
  backtracking engine runs it. The greedy `[^0-9]*` takes everything up to the
  first digit. When the text has no digit, `[\d,]+` can only match commas, so
  the engine backs off to the last comma. "a,b" therefore matches, with the
  value NaN.
- A number is kept exact: a `Decimal(mantissa, scale)` stands for
  mantissa / 10^scale. NaN is `None`.
- The suffix tests are independent, so a spelled-out unit compounds:
  " Lakh" contains both an L and a K and scales by 10^8;
  " Million" contains both an M and an L and scales by 10^11.
  `MultiplierCompounds` states the first, and that "KM" scales by 10^9.
- Dialogs (`alert`, `confirm`) become returned values. The answer to `confirm`
  is an input. `localStorage` is a field of the toggle.
- `Date` becomes a `DateTime` input.

## Model

| member | source | states |
|---|---|---|
| JsText.TrimStart | homepage/script.js:278 | drops exactly the leading run of ECMAScript white space and line terminators |
| JsText.TrimEnd | homepage/script.js:278 | drops exactly the trailing run of white space |
| JsText.Trim | homepage/script.js:278-280 | the result is empty iff the input is all white space; otherwise it starts and ends with a non-space and is the input with all-space text removed from both ends |
| JsText.TrimIdempotent | homepage/script.js:278-280 | trimming twice is trimming once, so the trimmed value tested by the pattern is the value checked for emptiness |
| JsText.IndexOf | homepage/script.js:279 | the first index of a character, or the length when it is absent |
| JsText.DigitRun | homepage/script.js:157 | the longest prefix of radix digits |
| JsText.DecimalDigits | officerDashboard/script.js:260-262 | the decimal numeral of a natural number: at least one digit, its value is the number, no leading zero unless it is 0 |
| JsText.IntString | homepage/script.js:161 | the text starts with '-' exactly for a negative number, and the rest is a decimal numeral of at least one digit whose value is the number's magnitude, with no leading zero unless it is "0" |
| JsText.ParseInt | homepage/script.js:157 | `parseInt` without a radix, in ECMAScript's steps: skip leading white space, read one optional sign, take a 0x/0X prefix as radix 16, read the longest run of digits, NaN when that run is empty; its contract says text that is all white space is NaN, and `ParseIntNoDigit`, `ParseIntReads` and `ParseIntString` state its results |
| JsText.ParseIntNoDigit | homepage/script.js:157 | text without any decimal digit reads as NaN |
| JsText.ParseIntReads | homepage/script.js:157 | white space, then an optional '+' or '-', then decimal digits (not a lone "0" followed by x or X), then anything not starting with a digit: `parseInt` gives the digits' value, negated after a '-' |
| JsText.ParseIntString | homepage/script.js:157-161 | `parseInt` reads back every integer that `toString` writes, negatives included |
| JsText.PadStart | officerDashboard/script.js:260-262 | `padStart` keeps strings already wide enough and otherwise left-pads to the width with the fill |
| JsText.LeadingZerosValue | officerDashboard/script.js:260-262 | leading zeros do not change a numeral's value |
| HeroSlider.WrapIndex | homepage/script.js:62 | `(n + len) % len` lies in [0, len), equals `n % len`, is `n` below `len` and 0 at `len` |
| HeroSlider.OnlyActiveCount | homepage/script.js:59-66 | the flags `showSlide` leaves have exactly one active entry when the index exists and none otherwise |
| HeroSlider.AdvanceCycles | homepage/script.js:69-71 | t calls of `nextSlide` from slide k land on `(k + t) % len` |
| HeroSlider.Slider.constructor | homepage/script.js:51-53 | the slider starts at slide 0 over the page's slides and dots |
| HeroSlider.Slider.Init | homepage/script.js:50-56 | no slider exists without slides; otherwise it exists, starts at 0 and is valid |
| HeroSlider.Slider.ShowSlide | homepage/script.js:58-67 | `currentSlide` becomes `(n + len) % len`; exactly that slide is active; the dot with that index is active if it exists and no other dot is |
| HeroSlider.Slider.NextSlide | homepage/script.js:69-71 | advances by one, wrapping from the last slide to slide 0, and shows the new slide alone |
| HeroSlider.Slider.ClickDot | homepage/script.js:94-96 | clicking dot i shows slide i (i modulo the slide count when there are more dots than slides) |
| Newsletter.Count | homepage/script.js:279 | a character occurs zero times exactly when it is absent |
| Newsletter.CountConcat | homepage/script.js:279 | occurrences add up over a concatenation |
| Newsletter.EmailRuleIsPattern | homepage/script.js:279-280 | the string matches `^[^\s@]+@[^\s@]+\.[^\s@]+$` iff it has no white space, exactly one '@' that is not first, and after it a domain with a '.' that is neither its first nor its last character |
| Newsletter.EmailRuleMatches | homepage/script.js:279-280 | a string that obeys the rule is matched by the pattern |
| Newsletter.PatternObeysRule | homepage/script.js:279-280 | a string the pattern matches obeys the rule |
| Newsletter.OnlyAt | homepage/script.js:279 | in a string with exactly one '@', no '@' follows the first one |
| Newsletter.SubmitNewsletter | homepage/script.js:277-288 | "enter your email" iff there is no input or its trimmed value is empty; "subscribed" iff the trimmed value matches the pattern; "invalid" otherwise; the alert shows that notice's text; the field is cleared exactly on "subscribed" |
| StatCounter.PlanStat | homepage/script.js:157-162 | skips iff neither `data-target` nor the text parses to a non-zero integer; otherwise the target comes from `data-target` first, is non-zero, and is written back exactly when `data-target` is missing or empty, as a string that parses back to it |
| StatCounter.PlanStatStable | homepage/script.js:157-165 | when the target came from `data-target` or was written back to it, running the rule again, whatever text the element then holds, gives the same target and writes nothing |
| SmoothScroll.ScrollTarget | homepage/script.js:227-238 | no scroll for "#", "#!" or a missing target; otherwise `max(0, offsetTop - headerHeight - 20)` with a header height of 70 when there is no header |
| SmoothScroll.FollowLink | homepage/script.js:227-248 | scrolls as `ScrollTarget` says, and a click that scrolls closes the mobile menu |
| PageToggles.MobileMenu.constructor | homepage/script.js:32-36 | the menu starts closed, with the bars icon |
| PageToggles.MobileMenu.ClickButton | homepage/script.js:33-37 | the menu toggles, and the icon shows the cross iff the menu is open |
| PageToggles.MobileMenu.ClickDocument | homepage/script.js:40-45 | a click outside both the menu and its button closes the menu; a click inside either leaves it unchanged |
| PageToggles.MobileMenu.CloseAfterScroll | homepage/script.js:241-248 | after an in-page scroll the menu is closed, with the bars icon |
| PageToggles.FlagText | homepage/script.js:375-388 | the stored text of a flag reads back as the same flag |
| PageToggles.DarkModeToggle.constructor | homepage/script.js:374-381 | dark mode starts on iff the stored value is "true", with the body class and the sun icon to match |
| PageToggles.DarkModeToggle.Click | homepage/script.js:383-389 | the flag is negated, the body class and the icon follow it, and the stored value reads back as the new flag |
| StatParser.FirstDigit | officerDashboard/script.js:173 | the index of the first digit, with no digit before it |
| StatParser.LastComma | officerDashboard/script.js:173 | the index of the last comma, with no comma after it |
| StatParser.CommaRunEnd | officerDashboard/script.js:173 | the end of the longest run of digits and commas |
| StatParser.DigitRunEnd | officerDashboard/script.js:173 | the end of the longest run of digits |
| StatParser.MatchStat | officerDashboard/script.js:173-174 | whatever the engine finds is a match of the pattern; its prefix is the text before the first digit; digits after the number group follow a '.' |
| StatParser.MatchStatGreedy | officerDashboard/script.js:173-174 | the engine's match is the leftmost-greedy reading: no reading of the text as the pattern has a longer prefix, and none with the same prefix ends its number later |
| StatParser.CommaSplit | officerDashboard/script.js:173 | text without digits reads as the pattern around its last comma |
| StatParser.DigitSplit | officerDashboard/script.js:173 | text with digits reads as the pattern from its first digit on, when nothing after the number is a digit |
| StatParser.MatchStatComplete | officerDashboard/script.js:173-174 | whenever the pattern matches the text at all, the engine finds a match, and that match's prefix is at least as long as the given reading's, its number ending no earlier when the prefixes agree |
| StatParser.MatchStatIffPattern | officerDashboard/script.js:173-174 | the engine finds a match exactly when the pattern matches |
| StatParser.Filter | officerDashboard/script.js:178 | keeps only the characters that satisfy the test |
| StatParser.FilterConcat | officerDashboard/script.js:178 | filtering distributes over concatenation |
| StatParser.RemoveCommas | officerDashboard/script.js:178 | no comma is left |
| StatParser.RemoveCommasCount | officerDashboard/script.js:178 | every other character is kept, as often as it occurs |
| StatParser.UpperCase | officerDashboard/script.js:182-185 | keeps the length, leaves no letter a-z, and changes each character in its case only |
| StatParser.UpperCaseIdempotent | officerDashboard/script.js:182-185 | upper-casing twice is upper-casing once |
| StatParser.ParseFloat | officerDashboard/script.js:179 | NaN exactly when the text starts with neither a digit nor a '.' followed by a digit; otherwise fewer digits follow the point than the text has characters |
| StatParser.Multiplier | officerDashboard/script.js:182-185 | the factor is the product of 1000 if the upper-cased suffix contains a K, 10^6 if it contains an M, 10^5 if it contains an L and 10^7 if it contains "CR", each test on its own |
| StatParser.MultiplierIgnoresCase | officerDashboard/script.js:182-185 | upper- or lower-casing the suffix does not change its factor |
| StatParser.MultiplierIsOne | officerDashboard/script.js:182-185 | the factor is 1 iff the suffix has no k, m or l in either case and no "cr" in any case, so an empty suffix leaves the value unchanged |
| StatParser.MultiplierExamples | officerDashboard/script.js:182-185 | "" scales by 1, "k" by 1000, "M" by 10^6, "L" by 10^5 and "Cr" by 10^7 |
| StatParser.MultiplierCompounds | officerDashboard/script.js:182-185 | units in one suffix compound: "KM" scales by 10^9, and " Lakh" by 10^8 because it holds both an L and a K |
| StatParser.ParseStatValue | officerDashboard/script.js:171-188 | the prefix starts the text, the suffix ends it, and the two do not overlap |
| StatParser.NumberValue | officerDashboard/script.js:178-185 | the value is NaN iff `parseFloat` of the number without commas is NaN; scaling keeps the digits after the point, and a factor of 1 leaves the parsed number as it is |
| StatParser.ParseStatValueParts | officerDashboard/script.js:171-177 | text the pattern does not match gives an empty prefix, NaN and an empty suffix; matched text is the prefix, the number group and the suffix, with no digit in the prefix or the suffix; no reading of the text as the pattern has a longer prefix, nor, with this prefix, a shorter suffix |
| StatParser.ParseStatValueNumber | officerDashboard/script.js:176-187 | the value is NaN iff the matched text has no digit; otherwise its mantissa is the number group's digits, read in order without commas and point, times the suffix factor, and its scale is the number of digits after the point |
| StatParser.NotANumberExample | officerDashboard/script.js:173-174 | "N/A" gives an empty prefix, NaN and an empty suffix |
| StatParser.MatchedGroup | officerDashboard/script.js:176-179 | the number group of a match converts to NaN iff the text has no digit, and otherwise to its digits with the point's place |
| StatParser.GroupValue | officerDashboard/script.js:178-179 | `parseFloat` of a digit-and-comma group, an optional point and digits, with its commas removed |
| StatParser.CommasGone | officerDashboard/script.js:178 | removing commas from such a group leaves its digits, the point and the digits after it |
| StatParser.ParseFloatOf | officerDashboard/script.js:179 | `parseFloat` of digits, an optional point and digits is their value with the point's place, and NaN when there is no digit |
| AdvancedClock.DisplayHour | officerDashboard/script.js:256-257 | the shown hour lies in 1..12 and agrees with the hour of the day modulo 12 |
| AdvancedClock.Meridiem | officerDashboard/script.js:253 | "PM" iff the hour is 12 or later, "AM" otherwise |
| AdvancedClock.TwelveHourRoundTrip | officerDashboard/script.js:253-257 | the shown hour and the marker give back the hour of the day, so no two hours look the same |
| AdvancedClock.TwoDigits | officerDashboard/script.js:260-262 | exactly two digits whose value is the field, with a leading '0' iff the field is below 10 |
| AdvancedClock.WeekdayNamesDistinct | officerDashboard/script.js:266 | seven weekday names, all different |
| AdvancedClock.MonthNamesDistinct | officerDashboard/script.js:267-268 | twelve month names, all different |
| AdvancedClock.UpdateAdvancedClock | officerDashboard/script.js:246-273 | the hour, minute and second texts are two digits each and read back as the shown hour, the minute and the second; the marker is "AM" or "PM", "PM" iff the hour is 12 or later; the hour and marker give back the 24-hour hour; the names are the table entries; the day and the year are written as `String` writes integers (digits only, a '-' only for a negative year, no leading zero) and read back as numbers |
| AccountMenu.ActionDialogs | officerDashboard/script.js:119-127 | no dialog for an unknown action; the sign-out question is asked iff the action is "signout", and only first; "Signed out!" is shown iff the user confirms it |
| AccountMenu.Dropdown.constructor | officerDashboard/script.js:110-112 | the dropdown starts closed |
| AccountMenu.Dropdown.ToggleMenu | officerDashboard/script.js:110-113 | the open state flips |
| AccountMenu.Dropdown.MenuAction | officerDashboard/script.js:115-128 | the dropdown is closed whatever the action, and the dialogs are those of `ActionDialogs` |
| AccountMenu.Dropdown.ClickDocument | officerDashboard/script.js:131-136 | a click outside the dropdown closes it; a click inside leaves it unchanged |

## Left out

- Timers and scheduling are not modelled: the slider's `setInterval`, pause on hover, the restart `setTimeout` after a dot click, unload cleanup, `requestAnimationFrame`, the scroll `ticking` guards and `debounce`. The slider's automatic advance is the `NextSlide` operation.
- `animateValue` and its cubic easing, in both pages, are floating-point animation. Only the target and the stat text are modelled.
- `isElementInViewport`, `animateOnScroll`, the header's scroll styling and the scale and hue styles are page geometry and styling.
- DOM lookup is an input. An absent e-mail field, header or scroll target is `None`; an absent mobile menu is `null`. `querySelector` throwing on an invalid selector in an `href` is not modelled.
- SmoothScroll.FollowLink: takes the nav and its button together as one `MobileMenu`, which is null unless the page has both. The script tests them one by one (homepage/script.js:243-247), so on a page with `#mainNav` but no `#mobileMenuBtn` a scrolling click still removes the nav's `active` class; the model leaves such a nav as it was.
- PageToggles.DarkModeToggle, AccountMenu.Dropdown: both assume their element exists. The scripts read `#darkModeToggle` (homepage/script.js:374-383) and `#dropdown` (officerDashboard/script.js:111-112, 116-117, 132-133) without a null check, so on a page without them they throw a TypeError; at homepage/script.js:378 the body class is already set when that happens. The model has no such error path.
- `alert` and `confirm` are returned values. The answer to `confirm` is a parameter.
- `localStorage` is a field of the dark-mode toggle. The toggle's background style is not modelled.
- `Date` and the `toLocale*` formatters are not modelled. The clock takes the `Date` fields as a `DateTime` input. The dashboard's `formatDate`, `formatTime`, `initClock`, `createAdvancedClock` template, error listener and `elementExists` are page wiring.
- The alerts of the contact buttons and the chat button are constant messages with no logic.
- The model covers `parseInt` and `parseFloat` only on the inputs these handlers give them. `parseInt` gets white space, a sign, a 0x prefix and decimal or hexadecimal digits. `parseFloat` gets digits with at most one point. Exponents, "Infinity" and double rounding are not modelled; numbers are exact.
- JsText.IntString: writes every integer in plain decimal digits. `Number.prototype.toString` switches to exponent notation from 10^21 on, and `parseInt("1e+21")` is 1, so for a target that large the write-back at homepage/script.js:161 does not read back as the target, although `StatCounter.PlanStat` and `JsText.ParseIntString` say it does. Above 2^53 the script's numbers also lose digits, which the model's exact integers do not.
- StatParser.UpperCase: upper-cases ASCII letters only. Full Unicode `toUpperCase` maps a few other characters to text containing K, M or L, such as the ligatures U+FB02 and U+FB04. On such a suffix the model gives a different factor.
- Strings are sequences of Unicode scalar values. JavaScript strings are UTF-16 code units. The two differ only for characters outside the Basic Multilingual Plane, which none of the handlers' patterns single out.
- HeroSlider.Slider.ShowSlide: takes a natural-number index. The script only ever passes `currentSlide + 1` or a dot's index, so a negative index never arises.
- The constructors assume the page's initial markup: the menu closed with the bars icon, the light theme with the moon icon, and the dropdown closed.

=== FILE: account_menu.dfy ===
/** The officer dashboard's account dropdown: `toggleMenu`, `menuAction` and
    the document click that closes it. The dropdown is reduced to its `open`
    class; the dialogs it raises are returned in order. */
module AccountMenu {

  /** A browser dialog: `alert` shows a message, `confirm` asks a question. */
  datatype Dialog = Alert(message: string) | Confirm(question: string)

  /** The dialogs `menuAction(action)` raises, when the user answers the sign-out
      question with `confirmed`. */
  function ActionDialogs(action: string, confirmed: bool): (ds: seq<Dialog>)
    ensures ds == [] <==> action != "settings" && action != "update" && action != "signout"
    ensures Confirm("Sign out?") in ds <==> action == "signout"
    ensures forall i :: 0 <= i < |ds| && ds[i].Confirm? ==> i == 0 && action == "signout"
    ensures Alert("Signed out!") in ds <==> action == "signout" && confirmed
    ensures action == "signout" ==> ds[0] == Confirm("Sign out?")
    ensures |ds| <= 2
  {
    if action == "settings" then [Alert("Go to Settings")]
    else if action == "update" then [Alert("Update Account")]
    else if action == "signout" then
      [Confirm("Sign out?")] + (if confirmed then [Alert("Signed out!")] else [])
    else []
  }

  class Dropdown {
    var open: bool

    /** The page loads with the dropdown closed. */
    constructor ()
      ensures !open
    {
      open := false;
    }

    /** `toggleMenu`: opens a closed dropdown and closes an open one. */
    method ToggleMenu()
      modifies this
      ensures open == !old(open)
    {
      open := !open;
    }

    /** `menuAction`: the dropdown is closed whatever the action, before any
        dialog. */
    method MenuAction(action: string, confirmed: bool) returns (dialogs: seq<Dialog>)
      modifies this
      ensures !open
      ensures dialogs == ActionDialogs(action, confirmed)
    {
      open := false;
      dialogs := ActionDialogs(action, confirmed);
    }

    /** A click anywhere on the document closes the dropdown unless it landed
        inside it. */
    method ClickDocument(insideDropdown: bool)
      modifies this
      ensures open == (old(open) && insideDropdown)
    {
      if !insideDropdown {
        open := false;
      }
    }
  }
}

=== FILE: advanced_clock.dfy ===
/** The officer dashboard's digital clock (`updateAdvancedClock`): a 24-hour
    time of day becomes a 12-hour face with AM/PM, two-character fields and
    weekday and month names. The `Date` itself is an input here. */
module AdvancedClock {
  import opened JsText

  /** The fields `updateAdvancedClock` reads from a `Date`, in the ranges the
      `Date` getters return. */
  datatype DateTime = DateTime(hour: int, minute: int, second: int,
                               weekday: int, month: int, date: int, year: int)

  predicate ValidDateTime(t: DateTime) {
    0 <= t.hour < 24 && 0 <= t.minute < 60 && 0 <= t.second < 60
    && 0 <= t.weekday < 7 && 0 <= t.month < 12 && 1 <= t.date <= 31
  }

  /** `hours % 12`, with 0 shown as 12. */
  function DisplayHour(hour: int): (h: int)
    requires 0 <= hour < 24
    ensures 1 <= h <= 12
    ensures h % 12 == hour % 12
  {
    var h := hour % 12;
    if h != 0 then h else 12
  }

  /** `hours >= 12 ? 'PM' : 'AM'`. */
  function Meridiem(hour: int): (m: string)
    ensures m == "PM" || m == "AM"
    ensures m == "PM" <==> hour >= 12
  {
    if hour >= 12 then "PM" else "AM"
  }

  /** Reading a 12-hour face back as a 24-hour hour. */
  function To24(h: int, m: string): int {
    (if h == 12 then 0 else h) + (if m == "PM" then 12 else 0)
  }

  /** The 12-hour face loses nothing: the hour and the marker give back the
      24-hour hour, so no two hours of the day look the same. */
  lemma TwelveHourRoundTrip(hour: int)
    requires 0 <= hour < 24
    ensures To24(DisplayHour(hour), Meridiem(hour)) == hour
  {
    if hour >= 12 {
      assert hour % 12 == hour - 12;
    } else {
      assert hour % 12 == hour;
    }
  }

  /** `value.toString().padStart(2, '0')` for a clock field. */
  function TwoDigits(v: int): (s: string)
    requires 0 <= v < 100
    ensures |s| == 2 && AllRadixDigits(s, 10)
    ensures DigitsValue(s, 10) == v
    ensures s[0] == '0' <==> v < 10
  {
    var ds := DecimalDigits(v);
    var s := PadStart(ds, 2, '0');
    assert |ds| <= 2 by {
      if |ds| > 2 {
        assert DigitsValue(ds, 10) >= 100 by { AtLeastPower(ds); }
      }
    }
    assert s == s[..|s| - |ds|] + ds;
    LeadingZerosValue(s[..|s| - |ds|], ds, 10);
    assert v >= 10 ==> |ds| == 2 by {
      if |ds| == 1 { assert ds[..0] == []; }
    }
    s
  }

  /** A numeral of three or more digits without a leading zero is at least 100. */
  lemma AtLeastPower(ds: string)
    requires |ds| > 2 && AllRadixDigits(ds, 10) && ds[0] != '0'
    ensures DigitsValue(ds, 10) >= 100
  {
    var front := ds[..|ds| - 1];
    if |ds| == 3 {
      var first := front[..1];
      assert first == [ds[0]];
      assert DigitsValue(first, 10) >= 1 by {
        assert first[..0] == [];
      }
    } else {
      assert front[0] == ds[0];
      AtLeastPower(front);
    }
  }

  const Weekdays: seq<string> :=
    ["Sunday", "Monday", "Tuesday", "Wednesday", "Thursday", "Friday", "Saturday"]
  const Months: seq<string> :=
    ["January", "February", "March", "April", "May", "June",
     "July", "August", "September", "October", "November", "December"]

  /** Every weekday index `getDay` returns names a day, and different days get
      different names. */
  lemma WeekdayNamesDistinct()
    ensures |Weekdays| == 7
    ensures forall i, j :: 0 <= i < j < 7 ==> Weekdays[i] != Weekdays[j]
  {
  }

  /** Every month index `getMonth` returns names a month, and different months
      get different names. */
  lemma MonthNamesDistinct()
    ensures |Months| == 12
    ensures forall i, j :: 0 <= i < j < 12 ==> Months[i] != Months[j]
  {
  }

  /** The text of the clock's eight spans. */
  datatype ClockFace = ClockFace(hours: string, minutes: string, seconds: string, ampm: string,
                                 weekday: string, month: string, day: string, year: string)

  /** One `updateAdvancedClock` tick. */
  function UpdateAdvancedClock(t: DateTime): (f: ClockFace)
    requires ValidDateTime(t)
    ensures |f.hours| == 2 && |f.minutes| == 2 && |f.seconds| == 2
    ensures AllRadixDigits(f.hours, 10) && AllRadixDigits(f.minutes, 10) && AllRadixDigits(f.seconds, 10)
    ensures DigitsValue(f.hours, 10) == DisplayHour(t.hour) && 1 <= DigitsValue(f.hours, 10) <= 12
    ensures DigitsValue(f.minutes, 10) == t.minute && DigitsValue(f.seconds, 10) == t.second
    ensures f.ampm == "AM" || f.ampm == "PM"
    ensures f.ampm == "PM" <==> t.hour >= 12
    ensures To24(DigitsValue(f.hours, 10), f.ampm) == t.hour
    ensures f.weekday == Weekdays[t.weekday] && f.month == Months[t.month]
    ensures IsIntText(f.day, t.date) && IsIntText(f.year, t.year)
    ensures ParseInt(f.day) == Some(t.date) && ParseInt(f.year) == Some(t.year)
  {
    TwelveHourRoundTrip(t.hour);
    ParseIntString(t.date);
    ParseIntString(t.year);
    ClockFace(TwoDigits(DisplayHour(t.hour)), TwoDigits(t.minute), TwoDigits(t.second),
              Meridiem(t.hour), Weekdays[t.weekday], Months[t.month],
              IntString(t.date), IntString(t.year))
  }
}

=== FILE: hero_slider.dfy ===
/** The homepage hero slider (`initHeroSlider`): a current index over the
    `.slide` elements and the `.slider-dot` elements, each element reduced to
    its `active` class flag. */
module HeroSlider {

  /** `(n + slides.length) % slides.length`, the index `showSlide(n)` settles on.
      Its operands are never negative, where JavaScript's truncating `%` and
      Dafny's Euclidean `%` agree. */
  function WrapIndex(n: nat, len: nat): (k: nat)
    requires len > 0
    ensures k < len
    ensures k == n % len
    ensures n < len ==> k == n
    ensures n == len ==> k == 0
  {
    ModUnique(n + len, len, n / len + 1, n % len);
    if n < len then
      ModUnique(n, len, 0, n);
      (n + len) % len
    else
      (n + len) % len
  }

  /** Euclidean division is unique: a quotient and remainder in range are the ones. */
  lemma ModUnique(a: int, b: int, q: int, r: int)
    requires b > 0 && 0 <= r < b && a == q * b + r
    ensures a % b == r && a / b == q
  {
    var q0, r0 := a / b, a % b;
    assert (q - q0) * b == r0 - r;
    if q > q0 {
      MulAtLeast(q - q0, b);
    } else if q < q0 {
      MulAtLeast(q0 - q, b);
    }
  }

  lemma MulAtLeast(x: int, b: int)
    requires x >= 1 && b > 0
    ensures x * b >= b
  {
  }

  /** The index `nextSlide` moves to from `k`. */
  function NextIndex(k: nat, len: nat): nat
    requires len > 0
  {
    WrapIndex(k + 1, len)
  }

  /** The flags of `len` elements of which only the one at `k` (if any) is active. */
  function OnlyActive(len: nat, k: nat): seq<bool> {
    seq(len, i => i == k)
  }

  /** The number of active flags. */
  function ActiveCount(flags: seq<bool>): nat {
    if flags == [] then 0
    else ActiveCount(flags[..|flags| - 1]) + (if flags[|flags| - 1] then 1 else 0)
  }

  /** Exactly one of the slides is active after `showSlide`, and at most one dot:
      none when the current index has no dot. */
  lemma {:induction false} OnlyActiveCount(len: nat, k: nat)
    ensures ActiveCount(OnlyActive(len, k)) == if k < len then 1 else 0
  {
    if len > 0 {
      OnlyActiveCount(len - 1, k);
      assert OnlyActive(len, k)[..len - 1] == OnlyActive(len - 1, k);
    }
  }

  /** Started anywhere, `t` steps of `nextSlide` land `t` slides further on,
      cyclically: the automatic rotation visits every slide in order and comes
      back to where it started after `len` steps. */
  function Advance(k: nat, len: nat, t: nat): nat
    requires len > 0
  {
    if t == 0 then k else NextIndex(Advance(k, len, t - 1), len)
  }

  lemma {:induction false} AdvanceCycles(k: nat, len: nat, t: nat)
    requires len > 0 && k < len
    ensures Advance(k, len, t) == (k + t) % len
  {
    if t > 0 {
      AdvanceCycles(k, len, t - 1);
      var p := Advance(k, len, t - 1);
      assert p == (k + t - 1) % len;
      if p + 1 == len {
        assert (k + t) % len == 0 by { ModSucc(k + t - 1, len); }
      } else {
        assert (k + t) % len == p + 1 by { ModSucc(k + t - 1, len); }
      }
    }
  }

  lemma ModSucc(a: nat, len: nat)
    requires len > 0
    ensures (a + 1) % len == if a % len + 1 == len then 0 else a % len + 1
  {
    if a % len + 1 == len {
      ModUnique(a + 1, len, a / len + 1, 0);
    } else {
      ModUnique(a + 1, len, a / len, a % len + 1);
    }
  }

  class Slider {
    /** The `active` class of every `.slide`. */
    const slides: array<bool>
    /** The `active` class of every `.slider-dot`; there may be fewer dots than slides. */
    const dots: array<bool>
    var currentSlide: nat

    ghost predicate Valid()
      reads this
    {
      slides.Length > 0 && currentSlide < slides.Length && slides != dots
    }

    /** Whether the page shows slide `k`, with its dot when it has one, and
        nothing else. */
    ghost predicate Shows(k: nat)
      reads this, slides, dots
    {
      slides[..] == OnlyActive(slides.Length, k) && dots[..] == OnlyActive(dots.Length, k)
    }

    constructor (slides: array<bool>, dots: array<bool>)
      requires slides.Length > 0 && slides != dots
      ensures Valid() && this.slides == slides && this.dots == dots && currentSlide == 0
    {
      this.slides := slides;
      this.dots := dots;
      currentSlide := 0;
    }

    /** `initHeroSlider` leaves the page alone when it has no slides. */
    static method Init(slides: array<bool>, dots: array<bool>) returns (s: Slider?)
      requires slides != dots
      ensures s == null <==> slides.Length == 0
      ensures s != null ==> fresh(s) && s.Valid() && s.slides == slides && s.dots == dots
                            && s.currentSlide == 0
    {
      if slides.Length == 0 {
        return null;
      }
      s := new Slider(slides, dots);
    }

    /** `showSlide(n)`: clear every slide and every dot, then activate the slide at
        the wrapped index and its dot if there is one. */
    method ShowSlide(n: nat)
      requires Valid()
      modifies this, slides, dots
      ensures Valid()
      ensures currentSlide == WrapIndex(n, slides.Length)
      ensures Shows(currentSlide)
    {
      var i := 0;
      while i < slides.Length
        invariant 0 <= i <= slides.Length
        invariant forall j :: 0 <= j < i ==> !slides[j]
      {
        slides[i] := false;
        i := i + 1;
      }
      i := 0;
      while i < dots.Length
        invariant 0 <= i <= dots.Length
        invariant forall j :: 0 <= j < i ==> !dots[j]
        invariant forall j :: 0 <= j < slides.Length ==> !slides[j]
      {
        dots[i] := false;
        i := i + 1;
      }
      currentSlide := WrapIndex(n, slides.Length);
      slides[currentSlide] := true;
      if currentSlide < dots.Length {
        dots[currentSlide] := true;
      }
      assert slides[..] == OnlyActive(slides.Length, currentSlide);
      assert dots[..] == OnlyActive(dots.Length, currentSlide);
    }

    /** `nextSlide`: one slide on, from the last slide back to the first. */
    method NextSlide()
      requires Valid()
      modifies this, slides, dots
      ensures Valid()
      ensures currentSlide == if old(currentSlide) + 1 == slides.Length then 0 else old(currentSlide) + 1
      ensures currentSlide == NextIndex(old(currentSlide), slides.Length)
      ensures Shows(currentSlide)
    {
      ShowSlide(currentSlide + 1);
    }

    /** A click on dot `index` shows slide `index`; a dot past the last slide
        wraps round, as `showSlide` does with any index. */
    method ClickDot(index: nat)
      requires Valid() && index < dots.Length
      modifies this, slides, dots
      ensures Valid()
      ensures currentSlide == index % slides.Length
      ensures index < slides.Length ==> currentSlide == index
      ensures Shows(currentSlide)
    {
      ShowSlide(index);
    }
  }
}

=== FILE: js_text.dfy ===
/** The few JavaScript built-ins the page scripts lean on, on Dafny strings:
    the white-space set shared by `String.prototype.trim` and the regular-expression
    class `\s`, `trim`, `parseInt` (no radix), `Number.prototype.toString` on
    integers and `padStart`. */
module JsText {

  datatype Option<T> = None | Some(value: T)

  /** ECMAScript WhiteSpace and LineTerminator code points: what `trim` strips,
      what `\s` matches and what `parseInt` skips at the start. */
  predicate IsSpace(c: char) {
    c == '\t' || c == '\n' || c == '\U{000B}' || c == '\U{000C}' || c == '\r' || c == ' '
    || c == '\U{00A0}' || c == '\U{1680}' || ('\U{2000}' <= c <= '\U{200A}')
    || c == '\U{2028}' || c == '\U{2029}' || c == '\U{202F}' || c == '\U{205F}'
    || c == '\U{3000}' || c == '\U{FEFF}'
  }

  predicate AllSpace(s: string) {
    forall i :: 0 <= i < |s| ==> IsSpace(s[i])
  }

  predicate NoSpace(s: string) {
    forall i :: 0 <= i < |s| ==> !IsSpace(s[i])
  }

  /** `r` is what is left of `s` once its leading white space is dropped: a
      suffix of `s` that does not start with white space, all of `s` in front of
      it being white space. */
  predicate TrimmedStartOf(s: string, r: string) {
    && |r| <= |s| && r == s[|s| - |r|..]
    && AllSpace(s[..|s| - |r|])
    && (r != [] ==> !IsSpace(r[0]))
  }

  /** `trimStart`: drops the leading white space and nothing else. */
  function TrimStart(s: string): (r: string)
    ensures TrimmedStartOf(s, r)
  {
    if s != [] && IsSpace(s[0]) then
      var r := TrimStart(s[1..]);
      TrimStartStep(s, r);
      r
    else
      assert AllSpace(s[..0]);
      s
  }

  lemma TrimStartStep(s: string, r: string)
    requires s != [] && IsSpace(s[0]) && TrimmedStartOf(s[1..], r)
    ensures TrimmedStartOf(s, r)
  {
    assert s[|s| - |r|..] == s[1..][|s| - 1 - |r|..];
    var front := s[..|s| - |r|];
    forall i | 0 <= i < |front|
      ensures IsSpace(front[i])
    {
      if i > 0 {
        assert front[i] == s[1..][..|s| - 1 - |r|][i - 1];
      }
    }
  }

  /** `trimEnd`: drops the trailing white space and nothing else. */
  function TrimEnd(s: string): (r: string)
    ensures |r| <= |s| && r == s[..|r|]
    ensures AllSpace(s[|r|..])
    ensures r != [] ==> !IsSpace(r[|r| - 1])
  {
    if s != [] && IsSpace(s[|s| - 1]) then TrimEnd(s[..|s| - 1]) else s
  }

  /** `r` is `s` with the white space around it dropped: empty exactly when `s`
      is all white space, and otherwise an infix of `s` that neither starts nor
      ends with white space and has only white space on either side. */
  predicate TrimmedOf(s: string, r: string) {
    && (r == [] <==> AllSpace(s))
    && (r != [] ==> !IsSpace(r[0]) && !IsSpace(r[|r| - 1]))
    && exists i :: 0 <= i <= |s| - |r| && r == s[i..i + |r|]
                   && AllSpace(s[..i]) && AllSpace(s[i + |r|..])
  }

  /** `String.prototype.trim`. */
  function Trim(s: string): (r: string)
    ensures TrimmedOf(s, r)
  {
    var t := TrimStart(s);
    var r := TrimEnd(t);
    TrimBounds(s, t, r);
    r
  }

  lemma TrimBounds(s: string, t: string, r: string)
    requires |t| <= |s| && t == s[|s| - |t|..] && AllSpace(s[..|s| - |t|])
    requires |r| <= |t| && r == t[..|r|] && AllSpace(t[|r|..])
    requires r != [] ==> !IsSpace(r[0]) && !IsSpace(r[|r| - 1])
    ensures TrimmedOf(s, r)
  {
    var i := |s| - |t|;
    assert r == s[i..i + |r|] && s[i + |r|..] == t[|r|..] by {
      assert t == s[i..];
    }
    TrimEmpty(s, i, |r|);
  }

  lemma TrimEmpty(s: string, i: nat, n: nat)
    requires i + n <= |s|
    requires AllSpace(s[..i]) && AllSpace(s[i + n..])
    requires n != 0 ==> !IsSpace(s[i])
    ensures n == 0 <==> AllSpace(s)
  {
    if n == 0 {
      assert s == s[..i] + s[i..];
    }
  }

  lemma {:induction false} TrimIdempotent(s: string)
    ensures Trim(Trim(s)) == Trim(s)
  {
    var t := Trim(s);
    if t != [] {
      assert TrimStart(t) == t;
      assert TrimEnd(t) == t;
    }
  }

  /** `indexOf`: the index of the first `c` in `s`, here `|s|` when there is none. */
  function IndexOf(s: string, c: char): (k: nat)
    ensures k <= |s| && c !in s[..k]
    ensures k < |s| ==> s[k] == c
  {
    if s == [] then 0
    else if s[0] == c then 0
    else
      var k := 1 + IndexOf(s[1..], c);
      assert s[..k] == [s[0]] + s[1..][..k - 1];
      k
  }

  /** The value of `c` as a digit of radix up to 36 (`0`-`9`, then `a`-`z` in
      either case); 36 for every other character. */
  function CharDigit(c: char): (d: nat)
    ensures d <= 36
  {
    if '0' <= c <= '9' then (c as int) - ('0' as int)
    else if 'a' <= c <= 'z' then (c as int) - ('a' as int) + 10
    else if 'A' <= c <= 'Z' then (c as int) - ('A' as int) + 10
    else 36
  }

  predicate IsDigit(c: char) { '0' <= c <= '9' }

  predicate AllRadixDigits(s: string, radix: nat) {
    forall i :: 0 <= i < |s| ==> CharDigit(s[i]) < radix
  }

  /** The number a string of radix digits denotes, most significant digit first. */
  function DigitsValue(ds: string, radix: nat): nat
    requires AllRadixDigits(ds, radix)
  {
    if ds == [] then 0
    else DigitsValue(ds[..|ds| - 1], radix) * radix + CharDigit(ds[|ds| - 1])
  }

  /** Length of the longest prefix of `s` made of radix digits. */
  function DigitRun(s: string, radix: nat): (k: nat)
    ensures k <= |s| && AllRadixDigits(s[..k], radix)
    ensures k < |s| ==> CharDigit(s[k]) >= radix
  {
    if s == [] || CharDigit(s[0]) >= radix then 0
    else
      var k := 1 + DigitRun(s[1..], radix);
      assert s[..k] == [s[0]] + s[1..][..k - 1];
      k
  }

  /** A prefix of digits followed by a non-digit (or the end) is the run. */
  lemma DigitRunIs(s: string, radix: nat, n: nat)
    requires n <= |s| && AllRadixDigits(s[..n], radix)
    requires n < |s| ==> CharDigit(s[n]) >= radix
    ensures DigitRun(s, radix) == n
  {
    var k := DigitRun(s, radix);
    forall i | 0 <= i < n
      ensures CharDigit(s[i]) < radix
    {
      assert s[..n][i] == s[i];
    }
    forall i | 0 <= i < k
      ensures CharDigit(s[i]) < radix
    {
      assert s[..k][i] == s[i];
    }
  }

  function DigitChar(d: nat): (c: char)
    requires d < 10
    ensures IsDigit(c) && CharDigit(c) == d
  {
    ('0' as int + d) as char
  }

  /** The decimal numeral of a natural number, as `Number.prototype.toString`
      writes it: digits only, and no leading zero unless the number is 0. */
  function DecimalDigits(n: nat): (r: string)
    ensures |r| >= 1 && AllRadixDigits(r, 10) && DigitsValue(r, 10) == n
    ensures forall i :: 0 <= i < |r| ==> IsDigit(r[i])
    ensures |r| > 1 ==> r[0] != '0'
    ensures r[0] == '0' ==> n == 0
  {
    if n < 10 then [DigitChar(n)]
    else
      var r := DecimalDigits(n / 10) + [DigitChar(n % 10)];
      assert r[..|r| - 1] == DecimalDigits(n / 10);
      r
  }

  /** `s` is an integer's text as `String(n)` writes it below 10^21: a '-'
      exactly for a negative number, then only decimal digits, whose value is
      the magnitude, with no leading zero unless the magnitude is 0. */
  predicate IsIntText(s: string, n: int) {
    && |s| >= 1 && (s[0] == '-' <==> n < 0)
    && var ds := if n < 0 then s[1..] else s;
       && |ds| >= 1 && AllRadixDigits(ds, 10) && DigitsValue(ds, 10) == (if n < 0 then -n else n)
       && (|ds| > 1 ==> ds[0] != '0')
  }

  /** `String(n)` for an integer `n`: a '-' exactly for a negative number, then
      the magnitude's decimal numeral without leading zeros. */
  function IntString(n: int): (r: string)
    ensures IsIntText(r, n)
  {
    if n < 0 then "-" + DecimalDigits(-n) else DecimalDigits(n)
  }

  /** `parseInt(s)` without a radix: skip leading white space, read an optional
      sign, then the magnitude; no digits at all gives NaN, written None. */
  function ParseInt(s: string): (r: Option<int>)
    ensures TrimStart(s) == [] ==> r == None
  {
    ParseSigned(TrimStart(s))
  }

  /** What `parseInt` does once the white space is gone: an optional sign, then
      the magnitude. */
  function ParseSigned(t: string): Option<int> {
    var negative := t != [] && t[0] == '-';
    var u := if t != [] && (t[0] == '-' || t[0] == '+') then t[1..] else t;
    match ParseMagnitude(u)
    case None => None
    case Some(m) => Some(if negative then -(m as int) else m)
  }

  /** Text without any decimal digit reads as NaN. */
  lemma ParseIntNoDigit(s: string)
    requires forall k :: 0 <= k < |s| ==> !IsDigit(s[k])
    ensures ParseInt(s) == None
  {
    var t := TrimStart(s);
    var u := if t != [] && (t[0] == '-' || t[0] == '+') then t[1..] else t;
    assert u != [] ==> u[0] == s[|s| - |u|];
  }

  /** The unsigned part of `parseInt`: radix 16 after a `0x`/`0X` prefix, else
      radix 10, and the value of the longest run of digits that follows; None
      when there is no digit there. Text that does not start with a decimal digit
      has no magnitude. */
  function ParseMagnitude(u: string): (r: Option<nat>)
    ensures u == [] || !IsDigit(u[0]) ==> r.None?
  {
    var hex := |u| >= 2 && u[0] == '0' && (u[1] == 'x' || u[1] == 'X');
    var radix := if hex then 16 else 10;
    var digits := if hex then u[2..] else u;
    var k := DigitRun(digits, radix);
    if k == 0 then None else Some(DigitsValue(digits[..k], radix))
  }

  /** Writing an integer with `String` and reading it back with `parseInt`
      gives the integer again. */
  lemma ParseIntString(n: int)
    ensures ParseInt(IntString(n)) == Some(n)
  {
    var ds := DecimalDigits(if n < 0 then -n else n);
    var sg := if n < 0 then Minus else NoSign;
    IntStringSpelled(n, sg, ds);
    IntStringValue(n, sg, ds);
    ParseIntReads([], sg, ds, []);
  }

  lemma IntStringSpelled(n: int, sg: Sign, ds: string)
    requires sg == if n < 0 then Minus else NoSign
    requires ds == DecimalDigits(if n < 0 then -n else n)
    ensures IntString(n) == [] + SignText(sg) + ds + []
  {
    Unpadded(SignText(sg), ds);
    if n < 0 {
      assert SignText(sg) == "-";
    } else {
      assert SignText(sg) + ds == ds;
    }
  }

  /** Drops the empty ends on their own, away from `parseInt`, where the solver
      handles sequence identities cheaply. */
  lemma Unpadded(b: string, c: string)
    ensures [] + b + c + [] == b + c
  {
  }

  lemma IntStringValue(n: int, sg: Sign, ds: string)
    requires sg == if n < 0 then Minus else NoSign
    requires ds == DecimalDigits(if n < 0 then -n else n)
    ensures Signed(sg, DigitsValue(ds, 10)) == n
  {
  }

  /** The sign `parseInt` accepts in front of the digits. */
  datatype Sign = NoSign | Plus | Minus

  function SignChar(sg: Sign): char {
    if sg == Minus then '-' else '+'
  }

  /** The value of a magnitude under a sign. */
  function Signed(sg: Sign, m: nat): int {
    if sg == Minus then -(m as int) else m
  }

  function SignText(sg: Sign): string {
    if sg == NoSign then [] else [SignChar(sg)]
  }

  /** `parseInt` skips leading white space, reads an optional sign and then the
      decimal digits up to the first character that is not one; what follows
      them is ignored. (A lone "0" followed by an `x` would start a hexadecimal
      number instead.) */
  lemma ParseIntReads(ws: string, sg: Sign, ds: string, rest: string)
    requires AllSpace(ws)
    requires |ds| >= 1 && forall i :: 0 <= i < |ds| ==> IsDigit(ds[i])
    requires rest != [] ==> !IsDigit(rest[0])
    requires |ds| == 1 && ds[0] == '0' && rest != [] ==> rest[0] != 'x' && rest[0] != 'X'
    ensures AllRadixDigits(ds, 10)
    ensures ParseInt(ws + SignText(sg) + ds + rest)
            == Some(Signed(sg, DigitsValue(ds, 10)))
  {
    var m := DigitsValue(ds, 10);
    var x := Some(Signed(sg, m));
    DecimalMagnitude(ds, rest);
    ParseIntGrouped(ws, sg, ds + rest, m);
    Regrouped(ws, SignText(sg), ds, rest, x);
  }

  /** The same reading with the text grouped from the right. */
  lemma ParseIntGrouped(ws: string, sg: Sign, u: string, m: nat)
    requires AllSpace(ws)
    requires u != [] && IsDigit(u[0])
    requires ParseMagnitude(u) == Some(m)
    ensures ParseInt(ws + (SignText(sg) + u)) == Some(Signed(sg, m))
  {
    var t := SignText(sg) + u;
    SignedParts(sg, u);
    ParseIntAfterSpace(ws, t);
    ParseSignedReads(t, sg, u, m);
  }

  /** Moves a `parseInt` fact across a regrouping of its argument; the identity
      itself is proved apart in `Regroup`, which keeps the solver fast. */
  lemma Regrouped(a: string, b: string, c: string, d: string, x: Option<int>)
    requires ParseInt(a + (b + (c + d))) == x
    ensures ParseInt(a + b + c + d) == x
  {
    Regroup(a, b, c, d);
  }

  /** Concatenation regrouped to the right. */
  lemma Regroup(a: string, b: string, c: string, d: string)
    ensures a + b + c + d == a + (b + (c + d))
  {
  }

  lemma ParseIntAfterSpace(ws: string, t: string)
    requires AllSpace(ws)
    requires t != [] && !IsSpace(t[0])
    ensures ParseInt(ws + t) == ParseSigned(t)
  {
    TrimStartAfterSpace(ws, t);
  }

  /** After the white space, `parseInt` reads the sign and hands what follows
      it to the magnitude. */
  lemma ParseSignedReads(t: string, sg: Sign, u: string, m: nat)
    requires sg == NoSign ==> t == u
    requires sg != NoSign ==> t != [] && t[0] == SignChar(sg) && t[1..] == u
    requires ParseMagnitude(u) == Some(m)
    ensures ParseSigned(t) == Some(Signed(sg, m))
  {
  }

  /** Decimal digits followed by a non-digit are not a hexadecimal prefix, and
      their value is the magnitude. */
  lemma DecimalMagnitude(ds: string, rest: string)
    requires |ds| >= 1 && forall i :: 0 <= i < |ds| ==> IsDigit(ds[i])
    requires rest != [] ==> !IsDigit(rest[0])
    requires |ds| == 1 && ds[0] == '0' && rest != [] ==> rest[0] != 'x' && rest[0] != 'X'
    ensures AllRadixDigits(ds, 10)
    ensures ParseMagnitude(ds + rest) == Some(DigitsValue(ds, 10))
  {
    assert AllRadixDigits(ds, 10) by {
      forall i | 0 <= i < |ds| ensures CharDigit(ds[i]) < 10 {
        assert IsDigit(ds[i]);
      }
    }
    var u := ds + rest;
    assert !(|u| >= 2 && u[0] == '0' && (u[1] == 'x' || u[1] == 'X')) by {
      if |ds| >= 2 { assert u[1] == ds[1]; }
    }
    assert DigitRun(u, 10) == |ds| && u[..|ds|] == ds by {
      assert u[..|ds|] == ds;
      DigitRunIs(u, 10, |ds|);
    }
  }

  lemma SignedParts(sg: Sign, u: string)
    requires u != [] && IsDigit(u[0])
    ensures sg == NoSign ==> SignText(sg) + u == u
    ensures sg != NoSign ==> var t := SignText(sg) + u;
              t != [] && t[0] == SignChar(sg) && t[1..] == u
  {
    if sg != NoSign {
      assert (SignText(sg) + u)[1..] == u;
    } else {
      assert SignText(sg) + u == u;
    }
  }

  /** Leading white space is all that `trimStart` removes. */
  lemma {:induction false} TrimStartAfterSpace(ws: string, t: string)
    requires AllSpace(ws)
    requires t != [] && !IsSpace(t[0])
    ensures TrimStart(ws + t) == t
    decreases |ws|
  {
    var s := ws + t;
    if ws == [] {
      assert s == t;
    } else {
      assert s[0] == ws[0] && IsSpace(ws[0]);
      assert s[1..] == ws[1..] + t;
      assert AllSpace(ws[1..]) by {
        forall i | 0 <= i < |ws| - 1 ensures IsSpace(ws[1..][i]) {
          assert ws[1..][i] == ws[i + 1];
        }
      }
      TrimStartAfterSpace(ws[1..], t);
    }
  }

  /** `String.prototype.padStart(width, fill)` with a one-character fill. */
  function PadStart(s: string, width: nat, fill: char): (r: string)
    ensures |r| == if |s| < width then width else |s|
    ensures r[|r| - |s|..] == s
    ensures forall i :: 0 <= i < |r| - |s| ==> r[i] == fill
  {
    if |s| < width then seq(width - |s|, _ => fill) + s else s
  }

  /** Leading zeros do not change the value of a numeral. */
  lemma {:induction false} LeadingZerosValue(zs: string, ds: string, radix: nat)
    requires forall i :: 0 <= i < |zs| ==> zs[i] == '0'
    requires AllRadixDigits(ds, radix) && radix > 0
    ensures AllRadixDigits(zs + ds, radix)
    ensures DigitsValue(zs + ds, radix) == DigitsValue(ds, radix)
    decreases |ds|
  {
    if ds == [] {
      ZerosValue(zs, radix);
      assert zs + ds == zs;
    } else {
      var front := ds[..|ds| - 1];
      LeadingZerosValue(zs, front, radix);
      assert (zs + ds)[..|zs + ds| - 1] == zs + front;
    }
  }

  lemma {:induction false} ZerosValue(zs: string, radix: nat)
    requires forall i :: 0 <= i < |zs| ==> zs[i] == '0'
    requires radix > 0
    ensures AllRadixDigits(zs, radix) && DigitsValue(zs, radix) == 0
  {
    if zs != [] {
      ZerosValue(zs[..|zs| - 1], radix);
    }
  }
}

=== FILE: newsletter.dfy ===
/** The homepage newsletter form: the submit handler trims the e-mail field and
    answers with one of three notices. */
module Newsletter {
  import opened JsText

  /** How often `c` occurs in `s`. */
  function Count(s: string, c: char): (n: nat)
    ensures n == 0 <==> c !in s
    ensures n <= |s|
  {
    if s == [] then 0 else Count(s[1..], c) + (if s[0] == c then 1 else 0)
  }

  lemma {:induction false} CountConcat(a: string, b: string, c: char)
    ensures Count(a + b, c) == Count(a, c) + Count(b, c)
  {
    if a != [] {
      CountConcat(a[1..], b, c);
      assert (a + b)[1..] == a[1..] + b;
    } else {
      assert a + b == b;
    }
  }

  /** `[^\s@]+`: a non-empty run with no white space and no '@'. */
  predicate IsAtom(s: string) {
    |s| > 0 && NoSpace(s) && '@' !in s
  }

  /** The strings `^[^\s@]+@[^\s@]+\.[^\s@]+$` matches: an atom, '@', an atom,
      '.', an atom, where the '.' may be any of the domain's dots. */
  ghost predicate MatchesEmailPattern(t: string) {
    exists a, d :: 0 <= a < d < |t| && t[a] == '@' && t[d] == '.'
                   && IsAtom(t[..a]) && IsAtom(t[a + 1..d]) && IsAtom(t[d + 1..])
  }

  /** A '.' in `d` that is neither its first nor its last character. */
  predicate HasInnerDot(d: string) {
    exists k :: 0 < k < |d| - 1 && d[k] == '.'
  }

  /** The e-mail rule in plain terms: no white space, exactly one '@', something
      before it, and a domain after it with a dot neither first nor last. */
  predicate IsEmailAddress(t: string) {
    NoSpace(t) && Count(t, '@') == 1 &&
    var a := IndexOf(t, '@');
    0 < a < |t| && HasInnerDot(t[a + 1..])
  }

  /** The plain rule and the regular expression accept the same strings. */
  lemma EmailRuleIsPattern(t: string)
    ensures IsEmailAddress(t) <==> MatchesEmailPattern(t)
  {
    if IsEmailAddress(t) {
      EmailRuleMatches(t);
    }
    if MatchesEmailPattern(t) {
      var a, d :| 0 <= a < d < |t| && t[a] == '@' && t[d] == '.'
                  && IsAtom(t[..a]) && IsAtom(t[a + 1..d]) && IsAtom(t[d + 1..]);
      PatternObeysRule(t, a, d);
    }
  }

  lemma EmailRuleMatches(t: string)
    requires IsEmailAddress(t)
    ensures MatchesEmailPattern(t)
  {
    var a := IndexOf(t, '@');
    var dom := t[a + 1..];
    var k :| 0 < k < |dom| - 1 && dom[k] == '.';
    var d := a + 1 + k;
    OnlyAt(t, a);
    assert dom[..k] == t[a + 1..d] && dom[k + 1..] == t[d + 1..];
    assert IsAtom(t[..a]);
    assert IsAtom(t[a + 1..d]);
    assert IsAtom(t[d + 1..]);
  }

  /** With exactly one '@', none follows the first. */
  lemma OnlyAt(t: string, a: nat)
    requires a < |t| && t[a] == '@' && '@' !in t[..a] && Count(t, '@') == 1
    ensures '@' !in t[a + 1..]
  {
    assert t == t[..a] + [t[a]] + t[a + 1..];
    CountConcat(t[..a] + [t[a]], t[a + 1..], '@');
    CountConcat(t[..a], [t[a]], '@');
  }

  lemma PatternObeysRule(t: string, a: nat, d: nat)
    requires a < d < |t| && t[a] == '@' && t[d] == '.'
    requires IsAtom(t[..a]) && IsAtom(t[a + 1..d]) && IsAtom(t[d + 1..])
    ensures IsEmailAddress(t)
  {
    var dom := t[a + 1..];
    assert dom == t[a + 1..d] + [t[d]] + t[d + 1..];
    assert '@' !in dom;
    assert t == t[..a] + [t[a]] + dom;
    CountConcat(t[..a] + [t[a]], dom, '@');
    CountConcat(t[..a], [t[a]], '@');
    assert IndexOf(t, '@') == a;
    assert dom[d - a - 1] == '.';
    assert HasInnerDot(dom);
    assert NoSpace(t) by {
      forall i | 0 <= i < |t| ensures !IsSpace(t[i]) {
        if i < a {
          assert t[i] == t[..a][i];
        } else if a < i < d {
          assert t[i] == t[a + 1..d][i - a - 1];
        } else if d < i {
          assert t[i] == t[d + 1..][i - d - 1];
        }
      }
    }
  }

  datatype Notice = EnterEmail | InvalidEmail | Subscribed

  /** The text of the alert each notice raises. */
  function NoticeText(n: Notice): string {
    match n
    case EnterEmail => "Please enter your email address."
    case InvalidEmail => "Please enter a valid email address."
    case Subscribed => "Thank you for subscribing! We'll send you farming tips and updates."
  }

  /** The notice raised, the text of its alert, and the e-mail field's value
      afterwards (None when the form has no e-mail field). */
  datatype Submission = Submission(notice: Notice, alert: string, field: Option<string>)

  /** The newsletter `submit` handler on the e-mail field's value. */
  function SubmitNewsletter(field: Option<string>): (r: Submission)
    ensures r.notice == EnterEmail <==> field == None || Trim(field.value) == []
    ensures r.notice == EnterEmail <==> field == None || AllSpace(field.value)
    ensures r.notice == Subscribed <==>
              field != None && Trim(field.value) != [] && MatchesEmailPattern(Trim(field.value))
    ensures r.alert == NoticeText(r.notice)
    ensures r.field == if r.notice == Subscribed then Some("") else field
  {
    match field
    case None => Submission(EnterEmail, NoticeText(EnterEmail), field)
    case Some(v) =>
      var t := Trim(v);
      EmailRuleIsPattern(t);
      if t == [] then Submission(EnterEmail, NoticeText(EnterEmail), field)
      else if IsEmailAddress(t) then Submission(Subscribed, NoticeText(Subscribed), Some(""))
      else Submission(InvalidEmail, NoticeText(InvalidEmail), field)
  }
}

=== FILE: page_toggles.dfy ===
/** The homepage's two toggles: the mobile navigation menu (`initMobileMenu`)
    and the dark-mode button. */
module PageToggles {
  import opened JsText

  /** The Font Awesome icon the menu button shows. */
  datatype MenuIcon = Bars | Times

  /** `#mainNav`'s `active` class and `#mobileMenuBtn`'s icon. `initMobileMenu`
      wires its handlers only when the page has both elements, and the model is
      of such a page. */
  class MobileMenu {
    var navActive: bool
    var icon: MenuIcon

    /** The icon matches the menu: a cross while it is open, bars while closed. */
    ghost predicate Valid()
      reads this
    {
      icon == (if navActive then Times else Bars)
    }

    /** The page loads with the menu closed and the bars icon. */
    constructor ()
      ensures Valid() && !navActive
    {
      navActive := false;
      icon := Bars;
    }

    /** A click on the menu button toggles the menu and redraws the icon from
        the new state, so the icon matches even if it did not before. */
    method ClickButton()
      modifies this
      ensures navActive == !old(navActive)
      ensures Valid()
    {
      navActive := !navActive;
      icon := if navActive then Times else Bars;
    }

    /** Any click on the document: one outside both the menu and its button
        closes the menu; one inside either leaves it alone. */
    method ClickDocument(insideNav: bool, insideButton: bool)
      requires Valid()
      modifies this
      ensures Valid()
      ensures navActive == (old(navActive) && (insideNav || insideButton))
      ensures insideNav || insideButton ==> navActive == old(navActive)
    {
      if !insideNav && !insideButton {
        navActive := false;
        icon := Bars;
      }
    }

    /** After an in-page link scrolls, an open menu is closed. */
    method CloseAfterScroll()
      requires Valid()
      modifies this
      ensures Valid() && !navActive
    {
      if navActive {
        navActive := false;
        icon := Bars;
      }
    }
  }

  /** The icon the dark-mode button shows: the sun while dark mode is on. */
  datatype ThemeIcon = Sun | Moon

  /** `localStorage.getItem('darkMode') === 'true'`. */
  function StoredFlag(stored: Option<string>): bool {
    stored == Some("true")
  }

  /** The string `localStorage.setItem` stores for a boolean; reading it back
      gives the same flag, so the next page load starts in the same mode. */
  function FlagText(b: bool): (s: string)
    ensures StoredFlag(Some(s)) == b
  {
    if b then "true" else "false"
  }

  /** The dark-mode flag, the body's `dark-mode` class, the button icon and the
      stored `darkMode` value. */
  class DarkModeToggle {
    var darkMode: bool
    var bodyDark: bool
    var icon: ThemeIcon
    var stored: Option<string>

    /** The body class and the icon follow the flag. */
    ghost predicate Valid()
      reads this
    {
      bodyDark == darkMode && icon == (if darkMode then Sun else Moon)
    }

    /** Page load: the flag is read from storage; dark mode switches the body
        class and the icon on. The markup itself starts light, with the moon. */
    constructor (stored: Option<string>)
      ensures Valid()
      ensures darkMode == StoredFlag(stored) && this.stored == stored
    {
      this.stored := stored;
      darkMode := StoredFlag(stored);
      bodyDark := StoredFlag(stored);
      icon := if StoredFlag(stored) then Sun else Moon;
    }

    /** A click negates the flag, toggles the body class, redraws the icon and
        stores the new flag. */
    method Click()
      requires Valid()
      modifies this
      ensures Valid()
      ensures darkMode == !old(darkMode)
      ensures stored == Some(FlagText(darkMode))
      ensures StoredFlag(stored) == darkMode
    {
      darkMode := !darkMode;
      bodyDark := !bodyDark;
      icon := if darkMode then Sun else Moon;
      stored := Some(FlagText(darkMode));
    }
  }
}

=== FILE: smooth_scroll.dfy ===
/** The homepage's in-page links (`initSmoothScrolling`): a click on an
    `a[href^="#"]` scrolls so that the target sits just below the fixed header. */
module SmoothScroll {
  import opened JsText
  import PageToggles

  datatype ScrollOutcome = NoScroll | ScrollTo(top: int)

  /** The height the handler assumes when the page has no `header`. */
  const DefaultHeaderHeight: int := 70
  /** The gap left between the header and the target. */
  const Gap: int := 20

  /** The scroll a click on a link to `href` asks for, given the target
      element's `offsetTop` (None when `querySelector` finds nothing) and the
      header's `offsetHeight` (None when the page has no header). */
  function ScrollTarget(href: string, targetTop: Option<int>, headerHeight: Option<int>): (r: ScrollOutcome)
    ensures r.NoScroll? <==> href == "#" || href == "#!" || targetTop == None
    ensures r.ScrollTo? ==>
              var h := if headerHeight.Some? then headerHeight.value else DefaultHeaderHeight;
              r.top >= 0 && r.top >= targetTop.value - h - Gap
              && (r.top == 0 || r.top == targetTop.value - h - Gap)
  {
    if href == "#" || href == "#!" then NoScroll
    else match targetTop
      case None => NoScroll
      case Some(offsetTop) =>
        var h := match headerHeight case Some(height) => height case None => DefaultHeaderHeight;
        var position := offsetTop - h - Gap;
        ScrollTo(if position > 0 then position else 0)
  }

  /** The whole click: scroll as `ScrollTarget` says and, when it scrolls, close
      the mobile menu. `menu` is null unless the page has both the nav and its
      button. */
  method FollowLink(menu: PageToggles.MobileMenu?, href: string, targetTop: Option<int>,
                    headerHeight: Option<int>) returns (r: ScrollOutcome)
    requires menu != null ==> menu.Valid()
    modifies menu
    ensures r == ScrollTarget(href, targetTop, headerHeight)
    ensures menu != null ==> menu.Valid()
    ensures menu != null && r.ScrollTo? ==> !menu.navActive
    ensures menu != null && r.NoScroll? ==> menu.navActive == old(menu.navActive)
  {
    r := ScrollTarget(href, targetTop, headerHeight);
    if r.ScrollTo? && menu != null {
      menu.CloseAfterScroll();
    }
  }
}

=== FILE: stat_counter.dfy ===
/** The homepage stat counters (`animateStats`): each `.stat-value` element's
    target comes from its `data-target` attribute, else from its text, else 0;
    a zero target is skipped. */
module StatCounter {
  import opened JsText

  /** The text `parseInt` sees for an attribute: `getAttribute` gives null for a
      missing one, which `parseInt` reads as the string "null". */
  function AttributeText(attr: Option<string>): string {
    match attr
    case None => "null"
    case Some(s) => s
  }

  /** Whether a `parseInt` result is truthy: NaN and 0 are not. */
  predicate Truthy(v: Option<int>) {
    v.Some? && v.value != 0
  }

  /** What the handler does with one element: skip it, or reset its text to "0",
      animate it up to `target` and, when the attribute was missing or empty,
      first write `target` into `data-target`. */
  datatype StatPlan = Skip | Animate(target: int, writeTarget: Option<string>)

  /** `parseInt(data-target) || parseInt(textContent) || 0`, then the skip on 0
      and the attribute write-back. */
  function PlanStat(attr: Option<string>, text: string): (p: StatPlan)
    ensures p.Skip? <==> !Truthy(ParseInt(AttributeText(attr))) && !Truthy(ParseInt(text))
    ensures p.Animate? && Truthy(ParseInt(AttributeText(attr))) ==>
              Some(p.target) == ParseInt(AttributeText(attr))
    ensures p.Animate? && !Truthy(ParseInt(AttributeText(attr))) ==>
              Some(p.target) == ParseInt(text)
    ensures p.Animate? ==> p.target != 0
    ensures p.Animate? ==> (p.writeTarget.Some? <==> attr == None || attr == Some(""))
    ensures p.Animate? && p.writeTarget.Some? ==> ParseInt(p.writeTarget.value) == Some(p.target)
  {
    var fromAttr := ParseInt(AttributeText(attr));
    var fromText := ParseInt(text);
    var target := if Truthy(fromAttr) then fromAttr.value
                  else if Truthy(fromText) then fromText.value
                  else 0;
    if target == 0 then Skip
    else if attr == None || attr == Some("") then
      ParseIntString(target);
      Animate(target, Some(IntString(target)))
    else Animate(target, None)
  }

  /** Running the handler again on an element it has already prepared (its
      `data-target` filled in, its text whatever the animation left there)
      animates to the same target and writes nothing, provided the target came
      from `data-target` or was written there. (A non-numeric, non-empty
      `data-target` is left as it is, and the second run then takes its target
      from the text it finds.) */
  lemma PlanStatStable(attr: Option<string>, text: string, text': string)
    requires PlanStat(attr, text).Animate?
    requires PlanStat(attr, text).writeTarget.Some? || Truthy(ParseInt(AttributeText(attr)))
    ensures var p := PlanStat(attr, text);
            var attr' := if p.writeTarget.Some? then p.writeTarget else attr;
            PlanStat(attr', text') == Animate(p.target, None)
  {
    var p := PlanStat(attr, text);
    var attr' := if p.writeTarget.Some? then p.writeTarget else attr;
    if p.writeTarget.Some? {
      ParseIntString(p.target);
      assert attr' != Some("") by {
        assert |IntString(p.target)| > 0;
      }
    }
  }
}

=== FILE: stat_parser.dfy ===
/** The officer dashboard's `parseStatValue`: a stat's display text such as
    "₹10L" or "$1,000" is split by `^([^0-9]*)([\d,]+\.?\d*)([^0-9]*)$` into a
    prefix, a number and a suffix, and the suffix's K, M, L and CR letters scale
    the number. The number is kept exact, as a decimal. */
module StatParser {
  import opened JsText

  predicate NoDigitIn(s: string, a: int, b: int)
    requires 0 <= a <= b <= |s|
  {
    forall k :: a <= k < b ==> !IsDigit(s[k])
  }

  predicate DigitsIn(s: string, a: int, b: int)
    requires 0 <= a <= b <= |s|
  {
    forall k :: a <= k < b ==> IsDigit(s[k])
  }

  predicate DigitsOrCommasIn(s: string, a: int, b: int)
    requires 0 <= a <= b <= |s|
  {
    forall k :: a <= k < b ==> IsDigit(s[k]) || s[k] == ','
  }

  /** A way to read `s` as the pattern's parts: `[^0-9]*` on `[0, i)`,
      `[\d,]+` on `[i, g)`, `\.?` on `[g, e)`, `\d*` on `[e, j)` and `[^0-9]*`
      on `[j, |s|)`. */
  predicate IsStatSplit(s: string, i: int, g: int, e: int, j: int) {
    0 <= i < g <= e <= j <= |s|
    && NoDigitIn(s, 0, i)
    && DigitsOrCommasIn(s, i, g)
    && (e == g || (e == g + 1 && s[g] == '.'))
    && DigitsIn(s, e, j)
    && NoDigitIn(s, j, |s|)
  }

  /** The strings the pattern matches. */
  ghost predicate MatchesStatPattern(s: string) {
    exists i, g, e, j :: IsStatSplit(s, i, g, e, j)
  }

  /** Where a match puts the boundaries between the pattern's parts. */
  datatype Split = Split(i: nat, g: nat, e: nat, j: nat)

  /** The index of the first digit, `|s|` when there is none. */
  function FirstDigit(s: string): (k: nat)
    ensures k <= |s| && NoDigitIn(s, 0, k)
    ensures k < |s| ==> IsDigit(s[k])
  {
    if s == [] then 0
    else if IsDigit(s[0]) then 0
    else 1 + FirstDigit(s[1..])
  }

  /** The index of the last ',', -1 when there is none. */
  function LastComma(s: string): (k: int)
    ensures -1 <= k < |s|
    ensures k >= 0 ==> s[k] == ','
    ensures forall m :: k < m < |s| ==> s[m] != ','
  {
    if s == [] then -1
    else if s[|s| - 1] == ',' then |s| - 1
    else LastComma(s[..|s| - 1])
  }

  /** The end of the longest run of digits and commas starting at `a`. */
  function CommaRunEnd(s: string, a: nat): (b: nat)
    requires a <= |s|
    ensures a <= b <= |s| && DigitsOrCommasIn(s, a, b)
    ensures b < |s| ==> !IsDigit(s[b]) && s[b] != ','
    decreases |s| - a
  {
    if a == |s| || !(IsDigit(s[a]) || s[a] == ',') then a else CommaRunEnd(s, a + 1)
  }

  /** The end of the longest run of digits starting at `a`. */
  function DigitRunEnd(s: string, a: nat): (b: nat)
    requires a <= |s|
    ensures a <= b <= |s| && DigitsIn(s, a, b)
    ensures b < |s| ==> !IsDigit(s[b])
    decreases |s| - a
  {
    if a == |s| || !IsDigit(s[a]) then a else DigitRunEnd(s, a + 1)
  }

  /** The match JavaScript's backtracking engine finds. The greedy `[^0-9]*`
      first takes every character before the first digit. With a digit there,
      `[\d,]+`, `\.?` and `\d*` each take as much as they can, and the match
      fails if a digit is left for the suffix (no backtracking helps then).
      Without any digit, `[\d,]+` can only be commas, so the engine backs off to
      the last ',' and the match fails when there is none. */
  function MatchStat(s: string): (m: Option<Split>)
    ensures m.Some? ==> IsStatSplit(s, m.value.i, m.value.g, m.value.e, m.value.j)
    ensures m.Some? && FirstDigit(s) < |s| ==> m.value.i == FirstDigit(s)
    ensures m.Some? && m.value.j > m.value.e ==> m.value.e == m.value.g + 1 && FirstDigit(s) < |s|
  {
    var fd := FirstDigit(s);
    if fd == |s| then
      var lc := LastComma(s);
      if lc < 0 then None
      else
        var e := if lc + 1 < |s| && s[lc + 1] == '.' then lc + 2 else lc + 1;
        CommaSplit(s, lc, e);
        Some(Split(lc, lc + 1, e, e))
    else
      var g := CommaRunEnd(s, fd);
      var e := if g < |s| && s[g] == '.' then g + 1 else g;
      var j := DigitRunEnd(s, e);
      if NoDigitIn(s, j, |s|) then
        DigitSplit(s, fd, g, e, j);
        Some(Split(fd, g, e, j))
      else None
  }

  /** Text without digits, read around its last comma. */
  lemma CommaSplit(s: string, lc: int, e: int)
    requires FirstDigit(s) == |s| && 0 <= lc < |s| && s[lc] == ','
    requires e == if lc + 1 < |s| && s[lc + 1] == '.' then lc + 2 else lc + 1
    ensures IsStatSplit(s, lc, lc + 1, e, e)
  {
    assert NoDigitIn(s, 0, lc);
  }

  /** Text with a digit, read from its first digit on. */
  lemma DigitSplit(s: string, fd: nat, g: nat, e: nat, j: nat)
    requires fd == FirstDigit(s) < |s|
    requires g == CommaRunEnd(s, fd)
    requires e == if g < |s| && s[g] == '.' then g + 1 else g
    requires j == DigitRunEnd(s, e) && NoDigitIn(s, j, |s|)
    ensures IsStatSplit(s, fd, g, e, j)
    ensures j > e ==> e == g + 1
  {
  }

  /** Whenever the pattern matches at all, the engine finds a match. */
  lemma MatchStatComplete(s: string, i: int, g: int, e0: int, j: int)
    requires IsStatSplit(s, i, g, e0, j)
    ensures MatchStat(s).Some?
    ensures i <= MatchStat(s).value.i
    ensures i == MatchStat(s).value.i ==> j <= MatchStat(s).value.j
  {
    var fd := FirstDigit(s);
    if fd == |s| {
      assert !IsDigit(s[i]) && s[i] == ',';
      var lc := LastComma(s);
      assert lc >= i;
      var e := if lc + 1 < |s| && s[lc + 1] == '.' then lc + 2 else lc + 1;
      assert MatchStat(s) == Some(Split(lc, lc + 1, e, e));
      assert i + 1 < g ==> s[i + 1] == ',';
      assert e0 < |s| ==> !IsDigit(s[e0]);
      assert j == e0;
      assert i == lc ==> g == lc + 1 && j <= e;
    } else {
      assert i <= fd < j;
      var g' := CommaRunEnd(s, fd);
      var e := if g' < |s| && s[g'] == '.' then g' + 1 else g';
      var f := DigitRunEnd(s, e);
      if fd < g {
        assert g <= g';
        if g' < j {
          assert g' < e0;
          assert g' == g && e == e0;
        }
      } else {
        assert e0 <= fd;
        assert j <= g';
      }
      assert j <= f;
      assert NoDigitIn(s, f, |s|);
      assert MatchStat(s) == Some(Split(fd, g', e, f));
    }
  }

  /** The engine's match is the leftmost-greedy one: of all the ways to read
      the text as the pattern, none has a longer prefix, and none with the same
      prefix has a longer number group. */
  lemma MatchStatGreedy(s: string)
    requires MatchStat(s).Some?
    ensures forall i, g, e, j :: IsStatSplit(s, i, g, e, j) ==>
              i <= MatchStat(s).value.i && (i == MatchStat(s).value.i ==> j <= MatchStat(s).value.j)
  {
    forall i, g, e, j | IsStatSplit(s, i, g, e, j)
      ensures i <= MatchStat(s).value.i && (i == MatchStat(s).value.i ==> j <= MatchStat(s).value.j)
    {
      MatchStatComplete(s, i, g, e, j);
    }
  }

  /** The engine finds a match exactly when the pattern matches. */
  lemma MatchStatIffPattern(s: string)
    ensures MatchStat(s).Some? <==> MatchesStatPattern(s)
  {
    if MatchStat(s).Some? {
      var m := MatchStat(s).value;
      assert IsStatSplit(s, m.i, m.g, m.e, m.j);
    }
    if MatchesStatPattern(s) {
      var i, g, e, j :| IsStatSplit(s, i, g, e, j);
      MatchStatComplete(s, i, g, e, j);
    }
  }

  /** The characters of `s` that satisfy `keep`, in order. */
  function Filter(s: string, keep: char -> bool): (r: string)
    ensures |r| <= |s|
    ensures forall k :: 0 <= k < |r| ==> keep(r[k])
  {
    if s == [] then [] else (if keep(s[0]) then [s[0]] else []) + Filter(s[1..], keep)
  }

  lemma {:induction false} FilterConcat(a: string, b: string, keep: char -> bool)
    ensures Filter(a + b, keep) == Filter(a, keep) + Filter(b, keep)
  {
    if a == [] {
      assert a + b == b;
    } else {
      var head := if keep(a[0]) then [a[0]] else [];
      assert (a + b)[0] == a[0] && (a + b)[1..] == a[1..] + b;
      assert Filter(a + b, keep) == head + Filter(a[1..] + b, keep);
      FilterConcat(a[1..], b, keep);
      assert Filter(a, keep) == head + Filter(a[1..], keep);
    }
  }

  /** Two filters that agree on every character of `s` pick the same characters. */
  lemma {:induction false} FilterAgree(s: string, p: char -> bool, q: char -> bool)
    requires forall k :: 0 <= k < |s| ==> p(s[k]) == q(s[k])
    ensures Filter(s, p) == Filter(s, q)
  {
    if s != [] {
      FilterAgree(s[1..], p, q);
    }
  }

  lemma {:induction false} FilterAll(s: string, keep: char -> bool)
    requires forall k :: 0 <= k < |s| ==> keep(s[k])
    ensures Filter(s, keep) == s
  {
    if s != [] {
      FilterAll(s[1..], keep);
    }
  }

  predicate NotComma(c: char) { c != ',' }

  /** `replace(/,/g, '')`: every comma goes, everything else stays in order. */
  function RemoveCommas(s: string): (r: string)
    ensures ',' !in r
  {
    Filter(s, NotComma)
  }

  /** Removing the commas keeps every other character, as often as it occurs. */
  lemma {:induction false} RemoveCommasCount(s: string)
    ensures multiset(RemoveCommas(s)) == multiset(s)[',' := 0]
  {
    if s != [] {
      RemoveCommasCount(s[1..]);
      assert s == [s[0]] + s[1..];
    }
  }

  /** The digits of `s`, in order. */
  function Digits(s: string): string {
    Filter(s, IsDigit)
  }

  /** An exact decimal: `mantissa / 10^scale`. */
  datatype Decimal = Decimal(mantissa: nat, scale: nat)

  /** `parseFloat` on a string of digits with at most one '.': the longest
      prefix of the form `digits [. digits]`, NaN (None) when it holds no digit. */
  function ParseFloat(ns: string): (r: Option<Decimal>)
    ensures r.None? <==> !(ns != [] && (IsDigit(ns[0]) || (|ns| > 1 && ns[0] == '.' && IsDigit(ns[1]))))
    ensures r.Some? ==> r.value.scale < |ns|
  {
    var k := DigitRun(ns, 10);
    var rest := ns[k..];
    var frac := if rest != [] && rest[0] == '.' then rest[1..][..DigitRun(rest[1..], 10)] else [];
    if k == 0 && frac == [] then None
    else Some(Decimal(DigitsValue(ns[..k] + frac, 10), |frac|))
  }

  /** `toUpperCase` on the letters `a`-`z`. */
  function UpperChar(c: char): char {
    if 'a' <= c <= 'z' then ((c as int) - 32) as char else c
  }

  function LowerChar(c: char): char {
    if 'A' <= c <= 'Z' then ((c as int) + 32) as char else c
  }

  /** `toUpperCase` on ASCII: no lower-case letter is left, and each
      character differs from the input's only in case. */
  function UpperCase(s: string): (u: string)
    ensures |u| == |s|
    ensures forall k :: 0 <= k < |u| ==> !('a' <= u[k] <= 'z')
    ensures forall k :: 0 <= k < |u| ==> LowerChar(u[k]) == LowerChar(s[k])
  {
    seq(|s|, k requires 0 <= k < |s| => UpperChar(s[k]))
  }

  /** `toLowerCase` on ASCII: no upper-case letter is left, and each
      character differs from the input's only in case. */
  function LowerCase(s: string): (u: string)
    ensures |u| == |s|
    ensures forall k :: 0 <= k < |u| ==> !('A' <= u[k] <= 'Z')
    ensures forall k :: 0 <= k < |u| ==> UpperChar(u[k]) == UpperChar(s[k])
  {
    seq(|s|, k requires 0 <= k < |s| => LowerChar(s[k]))
  }

  /** Upper-casing twice is upper-casing once. */
  lemma UpperCaseIdempotent(s: string)
    ensures UpperCase(UpperCase(s)) == UpperCase(s)
  {
    var u := UpperCase(s);
    forall k | 0 <= k < |u|
      ensures UpperCase(u)[k] == u[k]
    {
      assert UpperChar(u[k]) == u[k];
    }
  }

  /** `u.includes('CR')`. */
  predicate HasCR(u: string) {
    exists k :: 0 <= k < |u| - 1 && u[k] == 'C' && u[k + 1] == 'R'
  }

  /** The factor the suffix applies. Each test looks at the whole upper-cased
      suffix on its own, so the factors compound: "KM" scales by 10^9. */
  function Multiplier(suffix: string): (v: nat)
    ensures var u := UpperCase(suffix);
            v == (if 'K' in u then 1000 else 1) * (if 'M' in u then 1000000 else 1)
                 * (if 'L' in u then 100000 else 1) * (if HasCR(u) then 10000000 else 1)
    ensures v >= 1
    ensures 'K' in UpperCase(suffix) ==> v >= 1000
    ensures 'M' in UpperCase(suffix) ==> v >= 1000000
    ensures 'L' in UpperCase(suffix) ==> v >= 100000
    ensures HasCR(UpperCase(suffix)) ==> v >= 10000000
  {
    var u := UpperCase(suffix);
    var v := 1;
    var v := if 'K' in u then v * 1000 else v;
    var v := if 'M' in u then v * 1000000 else v;
    var v := if 'L' in u then v * 100000 else v;
    var v := if HasCR(u) then v * 10000000 else v;
    v
  }

  /** Upper-casing a suffix, or lower-casing it, does not change its factor. */
  lemma MultiplierIgnoresCase(s: string)
    ensures Multiplier(UpperCase(s)) == Multiplier(s)
    ensures Multiplier(LowerCase(s)) == Multiplier(s)
  {
    UpperCaseIdempotent(s);
    assert UpperCase(LowerCase(s)) == UpperCase(s);
  }

  /** A suffix leaves the number unscaled exactly when it holds none of k, m, l
      in either case and no "cr" in any case. */
  lemma MultiplierIsOne(s: string)
    ensures Multiplier(s) == 1 <==>
              (forall k :: 0 <= k < |s| ==>
                 UpperChar(s[k]) != 'K' && UpperChar(s[k]) != 'M' && UpperChar(s[k]) != 'L')
              && !HasCR(UpperCase(s))
  {
    var u := UpperCase(s);
    if 'K' in u {
      var k :| 0 <= k < |u| && u[k] == 'K';
      assert UpperChar(s[k]) == 'K';
    }
    if 'M' in u {
      var k :| 0 <= k < |u| && u[k] == 'M';
      assert UpperChar(s[k]) == 'M';
    }
    if 'L' in u {
      var k :| 0 <= k < |u| && u[k] == 'L';
      assert UpperChar(s[k]) == 'L';
    }
  }

  /** The result of `parseStatValue`: None stands for NaN. */
  datatype StatValue = StatValue(prefix: string, value: Option<Decimal>, suffix: string)

  function ParseStatValue(text: string): (r: StatValue)
    ensures |r.prefix| + |r.suffix| <= |text|
    ensures r.prefix == text[..|r.prefix|] && r.suffix == text[|text| - |r.suffix|..]
  {
    match MatchStat(text)
    case None => StatValue("", None, "")
    case Some(m) =>
      assert m.i <= m.j <= |text|;
      StatValue(text[..m.i], NumberValue(text[m.i..m.j], text[m.j..]), text[m.j..])
  }

  /** The number group without its commas, through `parseFloat`, scaled by the
      suffix's factor; NaN stays NaN. */
  function NumberValue(number: string, suffix: string): (r: Option<Decimal>)
    ensures r.None? <==> ParseFloat(RemoveCommas(number)).None?
    ensures r.Some? ==> r.value.scale == ParseFloat(RemoveCommas(number)).value.scale
    ensures Multiplier(suffix) == 1 ==> r == ParseFloat(RemoveCommas(number))
  {
    match ParseFloat(RemoveCommas(number))
    case None => None
    case Some(d) => Some(Scaled(d, Multiplier(suffix)))
  }

  /** `value * factor` for a whole factor. */
  function Scaled(d: Decimal, factor: nat): Decimal {
    Decimal(d.mantissa * factor, d.scale)
  }

  /** How many digits follow the '.' of a number group; 0 without a '.'. */
  function FractionLength(number: string): nat {
    var p := IndexOf(number, '.');
    if p < |number| then |number| - p - 1 else 0
  }

  /** What `parseStatValue` returns: nothing but NaN for text the pattern does
      not match; otherwise the text is the prefix, the number group and the
      suffix, and the prefix and suffix hold no digit. */
  lemma ParseStatValueParts(text: string)
    ensures MatchStat(text).None? ==> ParseStatValue(text) == StatValue("", None, "")
    ensures MatchStat(text).Some? <==> MatchesStatPattern(text)
    ensures MatchStat(text).Some? ==>
              var r, m := ParseStatValue(text), MatchStat(text).value;
              text == r.prefix + text[m.i..m.j] + r.suffix
              && NoDigitIn(r.prefix, 0, |r.prefix|) && NoDigitIn(r.suffix, 0, |r.suffix|)
    ensures MatchStat(text).Some? ==>
              var r := ParseStatValue(text);
              forall i, g, e, j :: IsStatSplit(text, i, g, e, j) ==>
                i <= |r.prefix| && (i == |r.prefix| ==> |r.suffix| <= |text| - j)
  {
    MatchStatIffPattern(text);
    if MatchStat(text).Some? {
      MatchStatGreedy(text);
      var m := MatchStat(text).value;
      ThreeParts(text, m.i, m.j);
      NoDigitShift(text, 0, m.i);
      NoDigitShift(text, m.j, |text|);
    }
  }

  /** The value `parseStatValue` finds in matched text: NaN exactly when the
      text has no digit, and otherwise the number group's digits, read in order
      without its commas and its point, scaled by the suffix's factor, with as
      many decimals as the group has after its point. */
  lemma ParseStatValueNumber(text: string)
    requires MatchStat(text).Some?
    ensures var r, m := ParseStatValue(text), MatchStat(text).value;
            var number := text[m.i..m.j];
            (r.value.Some? <==> FirstDigit(text) < |text|)
            && (r.value.Some? ==>
                  AllRadixDigits(Digits(number), 10)
                  && r.value.value.mantissa == DigitsValue(Digits(number), 10) * Multiplier(r.suffix)
                  && r.value.value.scale == FractionLength(number))
  {
    var m := MatchStat(text).value;
    MatchedGroup(text, m.i, m.g, m.e, m.j);
  }

  /** The number group of a match whose digits after the group follow a point,
      and which starts at the first digit when there is one. */
  lemma MatchedGroup(s: string, i: int, g: int, e: int, j: int)
    requires IsStatSplit(s, i, g, e, j)
    requires j > e ==> e == g + 1 && FirstDigit(s) < |s|
    requires FirstDigit(s) < |s| ==> i == FirstDigit(s)
    ensures var number := s[i..j];
            AllRadixDigits(Digits(number), 10)
            && (ParseFloat(RemoveCommas(number)).Some? <==> FirstDigit(s) < |s|)
            && (ParseFloat(RemoveCommas(number)).Some? ==>
                  ParseFloat(RemoveCommas(number))
                    == Some(Decimal(DigitsValue(Digits(number), 10), FractionLength(number))))
  {
    var whole, point, frac := s[i..g], s[g..e], s[e..j];
    SliceSplit(s, i, g, e);
    SliceSplit(s, i, e, j);
    GroupParts(s, i, g, e, j);
    GroupValue(whole, point, frac);
    if FirstDigit(s) < |s| {
      LeadingDigit(whole);
    } else {
      FilterNone(whole);
    }
  }

  /** The parts of a split, as strings on their own. */
  lemma GroupParts(s: string, i: int, g: int, e: int, j: int)
    requires IsStatSplit(s, i, g, e, j)
    ensures forall k :: 0 <= k < g - i ==> IsDigit(s[i..g][k]) || s[i..g][k] == ','
    ensures FirstDigit(s) == |s| ==> NoDigitIn(s[i..g], 0, g - i)
    ensures s[g..e] == [] || s[g..e] == "."
    ensures forall k :: 0 <= k < j - e ==> IsDigit(s[e..j][k])
  {
    assert forall k :: 0 <= k < g - i ==> s[i..g][k] == s[i + k];
    assert forall k :: 0 <= k < j - e ==> s[e..j][k] == s[e + k];
  }

  lemma ThreeParts(s: string, a: int, b: int)
    requires 0 <= a <= b <= |s|
    ensures s == s[..a] + s[a..b] + s[b..]
  {
  }

  lemma SliceSplit(s: string, a: int, b: int, c: int)
    requires 0 <= a <= b <= c <= |s|
    ensures s[a..c] == s[a..b] + s[b..c]
  {
  }

  lemma LeadingDigit(s: string)
    requires s != [] && IsDigit(s[0])
    ensures Digits(s) != []
  {
  }

  lemma NoDigitShift(s: string, a: int, b: int)
    requires 0 <= a <= b <= |s| && NoDigitIn(s, a, b)
    ensures NoDigitIn(s[a..b], 0, b - a)
  {
    assert forall k :: 0 <= k < b - a ==> s[a..b][k] == s[a + k];
  }

  /** What `parseFloat` makes of a number group once its commas are gone: NaN
      when the group has no digit, else its digits with the point's place. */
  lemma GroupValue(whole: string, point: string, frac: string)
    requires forall k :: 0 <= k < |whole| ==> IsDigit(whole[k]) || whole[k] == ','
    requires point == [] || point == "."
    requires forall k :: 0 <= k < |frac| ==> IsDigit(frac[k])
    requires point == [] ==> frac == []
    ensures var number := whole + point + frac;
            AllRadixDigits(Digits(number), 10)
            && ParseFloat(RemoveCommas(number))
                 == if Digits(whole) == [] && frac == [] then None
                    else Some(Decimal(DigitsValue(Digits(number), 10), FractionLength(number)))
  {
    CommasGone(whole, point, frac);
    DigitsKept(whole, point, frac);
    ParseFloatOf(Digits(whole), point, frac);
    PointAt(whole, point, frac);
  }

  /** Without its commas, a group of digits and commas, an optional point and
      a run of digits is its digits, the point and the run. */
  lemma CommasGone(whole: string, point: string, frac: string)
    requires forall k :: 0 <= k < |whole| ==> IsDigit(whole[k]) || whole[k] == ','
    requires point == [] || point == "."
    requires forall k :: 0 <= k < |frac| ==> IsDigit(frac[k])
    ensures RemoveCommas(whole + point + frac) == Digits(whole) + point + frac
  {
    FilterConcat(whole + point, frac, NotComma);
    FilterConcat(whole, point, NotComma);
    FilterAgree(whole, NotComma, IsDigit);
    FilterAll(frac, NotComma);
    FilterAll(point, NotComma);
  }

  lemma DigitsKept(whole: string, point: string, frac: string)
    requires point == [] || point == "."
    requires forall k :: 0 <= k < |frac| ==> IsDigit(frac[k])
    ensures Digits(whole + point + frac) == Digits(whole) + frac
  {
    FilterConcat(whole + point, frac, IsDigit);
    FilterConcat(whole, point, IsDigit);
    FilterAll(frac, IsDigit);
    assert Digits(point) == [] by {
      if point == "." {
        assert point[1..] == [];
      }
    }
  }

  lemma {:induction false} FilterNone(s: string)
    requires NoDigitIn(s, 0, |s|)
    ensures Digits(s) == []
  {
    if s != [] {
      assert NoDigitIn(s[1..], 0, |s| - 1) by {
        assert forall k :: 0 <= k < |s| - 1 ==> s[1..][k] == s[k + 1];
      }
      FilterNone(s[1..]);
    }
  }

  /** In `whole + point + frac`, the '.' (if any) is the point. */
  lemma PointAt(whole: string, point: string, frac: string)
    requires forall k :: 0 <= k < |whole| ==> IsDigit(whole[k]) || whole[k] == ','
    requires point == [] || point == "."
    requires point == [] ==> frac == []
    ensures FractionLength(whole + point + frac) == |frac|
  {
    var n := whole + point + frac;
    if point == "." {
      assert n[|whole|] == '.';
      assert n[..|whole|] == whole;
      assert '.' !in whole;
      assert IndexOf(n, '.') == |whole|;
    } else {
      assert n == whole;
      assert '.' !in whole;
    }
  }

  /** `parseFloat` on `ds`, an optional point and the digits after it. */
  lemma ParseFloatOf(ds: string, point: string, frac: string)
    requires AllRadixDigits(ds, 10) && AllRadixDigits(frac, 10)
    requires point == [] || point == "."
    requires point == [] ==> frac == []
    ensures AllRadixDigits(ds + frac, 10)
    ensures ParseFloat(ds + point + frac)
              == if ds == [] && frac == [] then None
                 else Some(Decimal(DigitsValue(ds + frac, 10), |frac|))
  {
    var rest := point + frac;
    assert ds + point + frac == ds + rest;
    WholeRun(ds, rest);
    if point == "." {
      assert rest[1..] == frac;
      DigitRunIs(frac, 10, |frac|);
      assert frac[..|frac|] == frac;
    }
  }

  /** The digits before a point, or before the end, are the whole run. */
  lemma WholeRun(ds: string, rest: string)
    requires AllRadixDigits(ds, 10)
    requires rest == [] || rest[0] == '.'
    ensures DigitRun(ds + rest, 10) == |ds|
    ensures (ds + rest)[..|ds|] == ds && (ds + rest)[|ds|..] == rest
  {
    assert (ds + rest)[..|ds|] == ds;
    DigitRunIs(ds + rest, 10, |ds|);
  }

  /** The factor of each of the dashboard's units on its own. */
  lemma MultiplierExamples()
    ensures Multiplier("") == 1
    ensures Multiplier("k") == 1000
    ensures Multiplier("M") == 1000000
    ensures Multiplier("L") == 100000
    ensures Multiplier("Cr") == 10000000
  {
    assert UpperCase("k") == "K";
    assert UpperCase("M") == "M" && "M"[0] == 'M';
    assert UpperCase("L") == "L" && "L"[0] == 'L';
    assert UpperCase("Cr") == "CR" && "CR"[0] == 'C' && "CR"[1] == 'R';
  }

  /** Units in one suffix compound: "KM" is a thousand millions, and the
      spelled-out " Lakh" holds both an L and a K, so its factor is 10^8 rather
      than a lakh's 10^5. */
  lemma MultiplierCompounds()
    ensures Multiplier("KM") == 1000000000
    ensures Multiplier(" Lakh") == 100000000
  {
    assert UpperCase("KM") == "KM" && "KM"[0] == 'K' && "KM"[1] == 'M';
    assert UpperCase(" Lakh") == " LAKH";
    assert " LAKH"[3] == 'K' && " LAKH"[1] == 'L';
    assert !HasCR(" LAKH");
  }

  /** Text without a digit or a comma does not match: NaN, no prefix, no suffix. */
  lemma NotANumberExample()
    ensures ParseStatValue("N/A") == StatValue("", None, "")
  {
    assert FirstDigit("N/A") == 3;
    assert LastComma("N/A") == -1;
  }
}
